=== FILE: README.md ===
# Todo service: authentication and owner-isolated todos

This project models the decision logic of a small multi-user todo service in Dafny. The service is written against FastAPI and SQLAlchemy, and the whole program sits in `main.py`. Users sign up and log in. Login returns a bearer token whose subject is the user's id. Every other route first resolves the caller from that token, then works on that caller's own todos.

The model covers these parts:

- **Store** (`store.dfy`). There are two tables, `users` and `todos`. Each is a sequence of rows kept in primary-key order (`Tables.Ordered`). A point lookup is `Tables.Find`. A new row gets the key after the largest one (`Tables.NextId`). `Store.Valid` is the model's invariant, which every request of the model keeps. Because case folding is simplified, the service itself does not keep its second clause; see the `Service.HandleKeepsValid` line under "## Left out". The clauses are:
  - both tables are in key order;
  - no two emails are equal once lower-cased;
  - every todo's owner is a stored user.
- **Collaborators** (`Store.Env`). The password hasher (`hash`, `verify`) and the token signer/verifier (`encode`, `decode`) are function-valued fields that are left uninterpreted. `decode(token, now)` is `None` when the library raises `JWTError`. The signing secret and algorithm live inside `encode`/`decode`. The configured token lifetime is `Env.expiresMinutes`.
- **Identity resolution** (`Auth.CurrentUser`). Each of these ends in the same `Unauthenticated` (401, "Could not validate credentials"):
  - a rejected token;
  - a subject that names no stored user;
  - an inactive user.

  A subject that is missing or is not an integer makes `int(...)` raise `TypeError`/`ValueError`. The `except JWTError` does not catch those, so the request ends in `Unhandled` (500). The `user_id is None` test at main.py:172 can never fire.
- **Sign-up and login** (`Auth.Signup`, `Auth.Login`). Emails are compared case-insensitively. Login answers an unknown email and a wrong password with the same 400. Login does not look at `is_active`, so an inactive user still gets a token. That token then fails identity resolution.
- **Todos** (`Todos`):
  - Create stamps the caller as owner.
  - Get, update and delete share one owner guard, `Todos.OwnedTodo`. It answers a missing id and another user's id with the same `NotFound`.
  - Update changes only the provided fields.
  - Delete removes one row.
  - List filters to the caller, optionally matches `q` case-insensitively in the title or description, orders by id descending, and then applies `skip`/`limit`. `Listing.ListTodosByScan` executes this as a backwards scan and is proved to return exactly `Todos.ListTodos`.
- **Requests** (`Service.Handle`). This is one step of the state machine, `(store, clock, request) -> (store', response)`. The lemmas over it cover:
  - the uniform 401;
  - preservation of `Store.Valid`;
  - isolation: a request made as one user leaves every other user's todos unchanged;
  - the sign-up → login → resolve round trip.

The clock is an integer number of seconds. Strings are `seq<char>`.

## Model

| member | source | states |
|---|---|---|
| `Text.ContainsIffOccurs` | main.py:261-262 | The substring test used for `ILIKE '%q%'` holds exactly when `q` occurs at some position, in both directions |
| `Text.ParseInt` | main.py:171 | Python `int()` on the subject succeeds exactly when the string is an optional `+`/`-` followed by one or more digits. The digit-count limit of newer Python versions is not modelled. Anything else, including an empty string, is the `ValueError` path. A negative result comes only from a leading `-` |
| `Text.Lower` | main.py:201 | Lower-casing keeps the length and folds each character on its own: `A`–`Z` become `a`–`z`, and every other character is kept |
| `Text.ParseIntOfIntToString` | main.py:171 | `int(str(n)) == n`: the subject written as `str(user.id)` at login reads back as the same id |
| `Text.IntToStringInjective` | main.py:221 | Distinct user ids give distinct token subjects |
| `Tables.Find` | main.py:177 | A primary-key lookup returns a stored row with that key, and returns nothing exactly when no row has the key |
| `Tables.FindInOrdered` | main.py:273 | In a key-ordered table, looking up a row's key finds exactly that row |
| `Tables.NextId` | main.py:53 | The id given to a new row exceeds every stored id |
| `Tables.Replace` | main.py:289-295 | Writing back a modified row replaces the row with that key in place; every other row stays as it was, at the same position |
| `Tables.ReplaceOrdered` | main.py:294-295 | Writing back a row with an unchanged key keeps the table in key order |
| `Tables.Remove` | main.py:309 | After deleting by key, the remaining rows are exactly the old rows with a different key |
| `Tables.RemoveOrdered` | main.py:309 | Deleting by key keeps a key-ordered table in key order |
| `Tables.RemoveOneRow` | main.py:309-310 | Deleting a key present in a key-ordered table removes exactly one row |
| `Tables.Reverse` | main.py:263 | Descending order lists the same rows with the last one first |
| `Tables.Page` | main.py:263 | `offset(skip).limit(limit)` keeps the rows from position `skip` onwards, at most `limit` of them, in order |
| `Tables.PageOfReverseDescends` | main.py:263 | `order_by(id.desc())` applied to a key-ordered table, then paged, lists ids in strictly descending order |
| `Tables.PageHolds` | main.py:263 | In a sequence without repeats, the row at position `p` is on the page exactly when `skip <= p < skip + limit` |
| `Auth.CurrentUser` | main.py:163-180 | A rejected token, a subject naming no active user, and an inactive user each give `Unauthenticated`. A subject that `int()` cannot read gives `Unhandled`, and exactly then. Success returns a stored active user whose id is the subject |
| `Auth.ResolvesActiveUser` | main.py:177-180 | A token whose subject is the id of a stored active user resolves to exactly that user |
| `Auth.FindByEmail` | main.py:218 | The case-insensitive email query returns a user whose email matches, and returns nothing exactly when no stored email matches |
| `Auth.FindByEmailUnique` | main.py:201 | When emails are unique ignoring case, the email query returns the single matching user |
| `Auth.Signup` | main.py:199-212 | Sign-up fails with `Conflict` iff a stored email matches ignoring case. Otherwise it appends one user with a fresh id, the given email, the hashed password, active, and the full name defaulting to "". Todos are unchanged and the reply omits the hash |
| `Auth.Login` | main.py:215-222 | Every failure is the same `BadCredentials`. If no matching user has a verifying password, login fails. On success the token is issued for a matching user whose password verifies. It is `encode` of `Auth.AccessClaims`, whose subject is `str(id)` and whose expiry is `now` plus the configured lifetime (main.py:123-127). The token type is `bearer` |
| `Auth.LoginSucceeds` | main.py:218-222 | With unique emails, the correct password for a stored email (in any letter case) logs in and yields that user's token |
| `Auth.LoginThenResolve` | main.py:221 | A token issued at login, once accepted by the decoder, resolves to the logged-in user if active and to `Unauthenticated` otherwise |
| `Todos.OwnedTodo` | main.py:273-275 | The owner guard returns a stored todo with the id that the caller owns. When no row with the id is the caller's (whether missing or foreign), it returns `NotFound` |
| `Todos.OwnedTodoFound` | main.py:286-288 | In a key-ordered table, the guard lets the owner through to their own todo |
| `Todos.CreateTodo` | main.py:234-248 | Create appends exactly one todo with a fresh id, the caller as owner, the given title, and a description defaulting to "". Both timestamps are `now`. Earlier rows and users are unchanged |
| `Todos.OwnedBy` | main.py:259 | The owner filter keeps exactly the rows owned by the user |
| `Todos.OwnedByOrdered` | main.py:259 | A user's rows, taken from a key-ordered table, are in key order |
| `Todos.Selected` | main.py:259-262 | The list filter keeps exactly the caller's rows that match `q` under `Todos.Matches`. An absent or empty `q` (`if q:`) matches everything; otherwise `q` must occur, ignoring case, in the title or the description |
| `Todos.SelectedOrdered` | main.py:259-263 | The rows the list filter keeps from a key-ordered table are in key order |
| `Todos.ListTodos` | main.py:251-264 | The list returns at most `limit` todos. Each is a stored todo of the caller that matches `q`, and ids strictly decrease |
| `Todos.GetTodo` | main.py:267-276 | Get returns the caller's todo with that id. A missing id and another user's id both give `NotFound` |
| `Todos.UpdateTodo` | main.py:279-297 | Update fails with `NotFound` exactly when the guard does. The title or description changes only if it was provided. Id, owner and `created_at` are kept and `updated_at` becomes `now`. Every other row and all users are unchanged |
| `Todos.DeleteTodo` | main.py:300-311 | Delete fails with `NotFound` exactly when the guard does. Otherwise the id is gone and every other row remains. In a valid table exactly one row goes and key order is kept. Users are unchanged |
| `Todos.DeleteThenGet` | main.py:306-310 | After a successful delete, getting or deleting the same id gives `NotFound` |
| `Todos.UpdateThenGet` | main.py:289-296 | After a successful update, get returns the updated todo |
| `Todos.UpdateIdempotent` | main.py:289-293 | Repeating an update with the same fields at the same time leaves store and reply as the first update did |
| `Listing.ListTodosByScan` | main.py:263 | A backwards scan that counts the selected rows and keeps those in the window returns exactly the list query's result |
| `Listing.CountAboveInOrdered` | main.py:263 | In a key-ordered sequence, the number of rows with a larger id than the row at position `j` is the number of rows after `j` |
| `Listing.ListWindow` | main.py:254-263 | In a valid table, one of the caller's todos that matches `q` is on the page iff the count of matching todos with a larger id lies in `[skip, skip + limit)` |
| `Listing.ListNewestFirst` | main.py:263 | With `skip = 0, limit = 1` the page is one matching todo of the caller, and no matching todo of the caller has a larger id |
| `Listing.SelectedWithinOwned` | main.py:259 | Filtering on `q` among all rows gives the same rows as filtering on `q` among the caller's rows |
| `Listing.ListSeesOnlyOwnTodos` | main.py:259 | Two stores in which the caller owns the same todos give the caller the same list |
| `Listing.CreateThenListNewest` | main.py:240-263 | A todo just created is the whole unfiltered first page of size one for its owner |
| `Isolation.OwnedByAppend` | main.py:243-245 | Adding a todo adds it to its owner's rows only |
| `Isolation.OwnedByReplace` | main.py:294-295 | Writing back a row that neither the old nor the new version gives to a user leaves that user's rows unchanged |
| `Isolation.OwnedByRemove` | main.py:309 | Deleting a key that no row of a user has leaves that user's rows unchanged |
| `Isolation.GuardedRowIsOnlyOne` | main.py:286-288 | In a key-ordered table, every row with the id that passed the guard belongs to the caller |
| `Isolation.CreateLeavesOthers` | main.py:240-247 | Create leaves every other user's todos unchanged |
| `Isolation.UpdateLeavesOthers` | main.py:286-296 | Update leaves every other user's todos unchanged |
| `Isolation.DeleteLeavesOthers` | main.py:306-310 | Delete leaves every other user's todos unchanged |
| `Isolation.GuardReadsOwnTodos` | main.py:273-275 | The guard's answer equals a lookup of the id among the caller's own todos |
| `Isolation.GuardSeesOnlyOwnTodos` | main.py:306-308 | Two stores in which the caller owns the same todos give the same get answer, the same update error or todo, and the same delete error. So a missing id and a foreign id are indistinguishable |
| `Service.Serve` | main.py:227-311 | A protected handler never changes `users`. It fails only with `NotFound`, and then leaves the store unchanged. It succeeds with 200, 201 or 204: 201 exactly for create and 204 exactly for delete |
| `Service.Handle` | main.py:163-180 | A request leaves the store unchanged when it fails and when it only reads. Protected routes never change `users`, and sign-up never changes `todos`. A protected request whose caller does not resolve gets that resolution error and no handler runs |
| `Service.UniformUnauthenticated` | main.py:174-179 | On every protected route, the answer is 401 with the store unchanged iff the token is rejected or its subject names no active user |
| `Service.UnauthenticatedStatus` | main.py:164-168 | On every protected route the status code sent is 401 iff the token is rejected or its subject names no active user. No handler answers 401 on its own, and no success carries it |
| `Service.SignupKeepsValid` | main.py:201-211 | The model's sign-up keeps the store valid: emails stay unique ignoring case and ids increasing. The service's own sign-up does not keep uniqueness for non-ASCII capitals, as listed under "## Left out" |
| `Service.CreateKeepsValid` | main.py:240-247 | Create by a stored user keeps the store valid |
| `Service.UpdateKeepsValid` | main.py:289-296 | Update keeps the store valid |
| `Service.DeleteKeepsValid` | main.py:306-310 | Delete keeps the store valid |
| `Service.HandleKeepsValid` | main.py:39-60 | Every request of the model keeps both tables in key order, emails unique ignoring case, and every todo's owner present. For the service, the email clause fails on non-ASCII capitals, as listed under "## Left out" |
| `Service.HandleLeavesOthers` | main.py:259-310 | A protected request made as one user leaves every other user's todos unchanged |
| `Service.SignupTwiceConflicts` | main.py:201-203 | Signing up again with the same email, differing only in ASCII letter case, answers `Conflict` and changes nothing |
| `Service.SignupLoginResolve` | main.py:204-221 | After sign-up, login with the same password succeeds, provided the hasher verifies what it hashed. The issued token resolves to the new user, provided the decoder accepts it |

## Left out

- Password hashing (`main.py:111-120`): `hash` and `verify` are uninterpreted fields of `Store.Env`. Salting, the bcrypt cost factor and constant-time comparison are not modelled. No property depends on them beyond the stated hypotheses.
- Token signing (`main.py:123-127`, `main.py:170`): `encode` and `decode` are uninterpreted. Signature checks, the algorithm list and expiry checking happen inside `decode`, so no tamper-evidence or expiry property is claimed. The issued claims (`sub = str(id)`, `exp = now + lifetime`) are modelled. The decoder is taken to give the subject as a string or not at all; a non-string `sub` counts as a decoder rejection.
- Text.ParseInt: models Python `int()` only for an optional sign followed by ASCII digits. Surrounding whitespace, `_` separators and non-ASCII digits, which Python also accepts, fall on the `ValueError` path here. Tokens issued by the service never contain them. Python 3.11 and later (and the matching security releases of 3.7 to 3.10) also raise `ValueError` for a string of more than 4300 digits. There the source answers 500, while `Text.ParseInt` reads the number and `Auth.CurrentUser` answers 401.
- Auth.CurrentUser: a subject of 2^63 or more passes `int()`, but `db.get` at main.py:177 raises `OverflowError` on the 64-bit integer column, so the source answers 500. The model looks the id up and answers 401.
- Text.Lower: folds ASCII letters only, as SQLite's built-in `lower()` does on the stored email (main.py:24, main.py:201, main.py:218). The other side of each comparison is Python's `str.lower()`, which also folds non-ASCII capitals. The model uses ASCII folding on both sides, so the five consequences below are not modelled: two where the stored email has a non-ASCII capital, two where the request does, and one where both do.
- Auth.LoginSucceeds: a stored email with a non-ASCII capital, such as `Ä@x.com`, can never log in, because main.py:218 compares the stored `Ä@x.com` with the lowered `ä@x.com` and answers 400. The lemma says it logs in.
- Service.SignupTwiceConflicts: signing up twice with such an email passes the 409 test at main.py:201-203. It then hits `unique=True` (main.py:42), and the database's integrity error becomes a 500. The lemma says 409.
- Auth.Login: with `ä@x.com` stored, logging in as `Ä@X.COM` succeeds in the source, because main.py:218 lowers the request to `ä@x.com`. The model answers `BadCredentials`, since its folding leaves `Ä` as it is.
- Auth.Signup: with `ä@x.com` stored, signing up as `Ä@x.com` answers 409 in the source (main.py:201-203). The model answers `Ok` and appends a second user.
- Auth.Signup: with `Äb@x.com` stored, signing up as `ÄB@x.com` answers 201 in the source. At main.py:201, SQLite's `lower('Äb@x.com')` is `Äb@x.com`, while Python's `'ÄB@x.com'.lower()` is `äb@x.com`, so the two do not match. The unique index at main.py:42 compares exact strings, so a second account is stored whose email equals the first one ignoring case. The model folds both to `Äb@x.com` and answers `Conflict`.
- Service.SignupTwiceConflicts: in the same case (`Äb@x.com` stored, `ÄB@x.com` signing up), the source answers 201 and stores a second account. The lemma says `Conflict`.
- Service.SignupKeepsValid: the source does not keep case-insensitive email uniqueness. After `Äb@x.com` and then `ÄB@x.com` sign up, both are stored, and that store fails `Store.EmailsUnique`. The lemma holds for the model's sign-up only.
- Service.HandleKeepsValid: for the same reason, the email-uniqueness clause of `Store.Valid` is an invariant of the model, not of the service. The key-order and owner clauses are unaffected.
- `LIKE` wildcards (`main.py:261`): `q` is matched as a plain substring. `%` and `_` inside `q` are not treated as wildcards. Case is folded with `Text.Lower` on both sides, as SQLite's ASCII-only `lower()` does; a database that folds further letters is not modelled.
- Missing or non-bearer `Authorization` header: the framework's own 401 answers it before `get_current_user` runs. The model starts from the token string.
- The framework and environment: routing, CORS, the startup hook, the health route, `.env` loading and the database URL, `EmailStr` validation and normalisation, and OAuth2 form parsing. Request validation (password at least 6, title 1 to 200, `skip >= 0`, `1 <= limit <= 100`) appears only as preconditions (`Service.WellFormed`). Its 422 answers are not modelled. The query defaults `skip = 0` and `limit = 20` (main.py:254-255) are not modelled either: the `ListTodosRequest` constructor of `Service.Request` always carries both values.
- Sessions, commits, refreshes and transactions (`main.py:155-160`): each handler is one atomic update of the store. Concurrent requests are not modelled.
- Id assignment: a new row gets the largest existing id plus one (`Tables.NextId`), as SQLite's default rowid choice does. So after the highest row is deleted, its id is handed out again. A sequence-backed database chosen through `DATABASE_URL` (main.py:24) never reuses ids; that choice is not modelled.
- Response bodies of errors: the fixed `detail` message each error carries, and the `WWW-Authenticate` header on a 401, are not modelled. A response carries its error, and `Service.Code` gives its status.
- Timestamps: the clock is integer seconds passed in as `now`. The ISO-8601 string form of `created_at`/`updated_at` is not modelled.
- Column length limits (`String(320)` and the others) are not enforced. Cascade delete of a user's todos has no reachable route and is left out.
- Database errors are not modelled: for example the integrity error from `unique=True` (main.py:42), and the overflow on an id too large for the integer column (main.py:177).

=== FILE: auth.dfy ===
/** Authentication: resolving the caller of a protected request from its
    bearer token, signing up, and logging in. */
module Auth {
  import opened Common
  import opened Text
  import opened Tables
  import opened Store

  /** Identity resolution for every protected request. A token the decoder
      rejects, a subject naming no stored user, and an inactive user all end
      in the same `Unauthenticated`. A subject that `int()` cannot read is
      not caught by the handler and ends in `Unhandled`. */
  function CurrentUser(env: Env, s: Store, now: Timestamp, token: string): (r: Result<User>)
    ensures env.decode(token, now).None? ==> r == Err(Unauthenticated)
    ensures r == Err(Unhandled)
        <==> env.decode(token, now).Some? && SubjectId(env.decode(token, now).value).None?
    ensures r.Err? ==> r.error == Unauthenticated || r.error == Unhandled
    ensures r.Ok? ==>
      && r.value in s.users
      && r.value.isActive
      && env.decode(token, now).Some?
      && SubjectId(env.decode(token, now).value) == Some(r.value.id)
    ensures env.decode(token, now).Some? && SubjectId(env.decode(token, now).value).Some? ==>
      var uid := SubjectId(env.decode(token, now).value).value;
      (forall i :: 0 <= i < |s.users| && s.users[i].id == uid ==> !s.users[i].isActive)
        ==> r == Err(Unauthenticated)
  {
    match env.decode(token, now)
    case None => Err(Unauthenticated)
    case Some(claims) =>
      match SubjectId(claims)
      case None => Err(Unhandled)
      case Some(uid) =>
        match Find(s.users, UserKey, uid)
        case None => Err(Unauthenticated)
        case Some(u) => if !u.isActive then Err(Unauthenticated) else Ok(u)
  }

  /** A token whose subject names a stored active user resolves to exactly
      that user. */
  lemma ResolvesActiveUser(env: Env, s: Store, now: Timestamp, token: string, i: int)
    requires Ordered(s.users, UserKey)
    requires 0 <= i < |s.users| && s.users[i].isActive
    requires env.decode(token, now).Some?
    requires SubjectId(env.decode(token, now).value) == Some(s.users[i].id)
    ensures CurrentUser(env, s, now, token) == Ok(s.users[i])
  {
    FindInOrdered(s.users, UserKey, i);
  }

  /** `filter(func.lower(User.email) == email.lower()).first()`: the first
      user, in table order, whose email matches without regard to case. */
  function FindByEmail(users: seq<User>, email: string): (r: Option<User>)
    ensures r.Some? ==> r.value in users && SameIgnoringCase(r.value.email, email)
    ensures r.None? <==> forall i :: 0 <= i < |users| ==> !SameIgnoringCase(users[i].email, email)
  {
    if |users| == 0 then None
    else if SameIgnoringCase(users[0].email, email) then Some(users[0])
    else
      var r := FindByEmail(users[1..], email);
      assert forall i :: 1 <= i < |users| ==> users[i] == users[1..][i - 1];
      r
  }

  /** With case-insensitively unique emails the match is the only one. */
  lemma {:induction false} FindByEmailUnique(users: seq<User>, email: string, i: int)
    requires EmailsUnique(users)
    requires 0 <= i < |users| && SameIgnoringCase(users[i].email, email)
    ensures FindByEmail(users, email) == Some(users[i])
  {
    if i > 0 {
      assert !SameIgnoringCase(users[0].email, users[i].email);
      assert users[1..][i - 1] == users[i];
      FindByEmailUnique(users[1..], email, i - 1);
    }
  }

  /** Sign-up: refused with `Conflict` exactly when a stored email matches
      without regard to case; otherwise one active user is added with a fresh
      id, the given email, the hashed password and the full name defaulting
      to "". The reply never carries the hash. */
  function Signup(env: Env, s: Store, now: Timestamp, email: string, password: string, fullName: Option<string>)
    : (r: Result<(Store, UserOut)>)
    requires 6 <= |password|
    requires Ordered(s.users, UserKey)
    ensures r.Err? <==> exists i :: 0 <= i < |s.users| && SameIgnoringCase(s.users[i].email, email)
    ensures r.Err? ==> r.error == Conflict
    ensures r.Ok? ==>
      var (s', out) := r.value;
      && s'.todos == s.todos
      && |s'.users| == |s.users| + 1
      && s'.users[..|s.users|] == s.users
      && var u := s'.users[|s.users|];
      && (forall i :: 0 <= i < |s.users| ==> s.users[i].id < u.id)
      && u.email == email
      && u.fullName == fullName.GetOr("")
      && u.hashedPassword == env.hash(password)
      && u.isActive
      && u.createdAt == now
      && out == Public(u)
  {
    if FindByEmail(s.users, email).Some? then
      Err(Conflict)
    else
      var u := User(NextId(s.users, UserKey), email, fullName.GetOr(""), env.hash(password), true, now);
      assert (s.users + [u])[..|s.users|] == s.users;
      Ok((Store(s.users + [u], s.todos), Public(u)))
  }

  /** The bearer token returned by a successful login. */
  datatype TokenOut = TokenOut(accessToken: string, tokenType: string)

  /** The claims of a token issued at `now` for `userId`: subject
      `str(userId)`, expiring after the configured lifetime. */
  function AccessClaims(env: Env, now: Timestamp, userId: int): Claims {
    Claims(Some(IntToString(userId)), now + env.expiresMinutes * 60)
  }

  function AccessToken(env: Env, now: Timestamp, userId: int): string {
    env.encode(AccessClaims(env, now, userId))
  }

  /** Login: an unknown email and a wrong password give the same
      `BadCredentials`; on success the token is issued for the matched user.
      Whether the user is active is not consulted here. */
  function Login(env: Env, s: Store, now: Timestamp, username: string, password: string): (r: Result<TokenOut>)
    ensures r.Err? ==> r.error == BadCredentials
    ensures (forall i :: 0 <= i < |s.users| && SameIgnoringCase(s.users[i].email, username)
               ==> !env.verify(password, s.users[i].hashedPassword))
            ==> r == Err(BadCredentials)
    ensures r.Ok? ==>
      exists i :: (
        && 0 <= i < |s.users|
        && SameIgnoringCase(s.users[i].email, username)
        && env.verify(password, s.users[i].hashedPassword)
        && r.value == TokenOut(AccessToken(env, now, s.users[i].id), "bearer"))
  {
    match FindByEmail(s.users, username)
    case None => Err(BadCredentials)
    case Some(u) =>
      if !env.verify(password, u.hashedPassword) then Err(BadCredentials)
      else Ok(TokenOut(AccessToken(env, now, u.id), "bearer"))
  }

  /** With unique emails, the right password for a stored email always logs
      in, and the token names that user. */
  lemma LoginSucceeds(env: Env, s: Store, now: Timestamp, username: string, password: string, i: int)
    requires EmailsUnique(s.users)
    requires 0 <= i < |s.users| && SameIgnoringCase(s.users[i].email, username)
    requires env.verify(password, s.users[i].hashedPassword)
    ensures Login(env, s, now, username, password) == Ok(TokenOut(AccessToken(env, now, s.users[i].id), "bearer"))
  {
    FindByEmailUnique(s.users, username, i);
  }

  /** A token issued at login resolves back to the user it was issued for,
      as long as the decoder accepts it (signature intact, not expired) and
      the user is still active; an inactive user's token gives
      `Unauthenticated`. */
  lemma LoginThenResolve(env: Env, s: Store, issuedAt: Timestamp, now: Timestamp,
                         username: string, password: string, i: int)
    requires Ordered(s.users, UserKey) && EmailsUnique(s.users)
    requires 0 <= i < |s.users| && SameIgnoringCase(s.users[i].email, username)
    requires env.verify(password, s.users[i].hashedPassword)
    requires var c := AccessClaims(env, issuedAt, s.users[i].id);
             env.decode(env.encode(c), now) == Some(c)
    ensures Login(env, s, issuedAt, username, password).Ok?
    ensures CurrentUser(env, s, now, Login(env, s, issuedAt, username, password).value.accessToken)
         == if s.users[i].isActive then Ok(s.users[i]) else Err(Unauthenticated)
  {
    LoginSucceeds(env, s, issuedAt, username, password, i);
    ParseIntOfIntToString(s.users[i].id);
    FindInOrdered(s.users, UserKey, i);
  }
}

=== FILE: common.dfy ===
/** Values shared by every handler of the todo service: optional request
    fields, the HTTP errors a handler raises, and the result that carries
    either a handler's value or its error. */
module Common {

  /** An optional request field or lookup result (Python's `Optional`). */
  datatype Option<+T> = None | Some(value: T) {

    /** The carried value, or `default` when absent (`x or default` for an
        optional string whose default is itself). */
    function GetOr(default: T): T {
      match this
      case Some(v) => v
      case None => default
    }
  }

  /** The HTTP exceptions the service raises. `Unhandled` stands for an
      exception that escapes a handler uncaught and becomes the framework's
      generic server error. Each error also carries one fixed `detail`
      message, which the model leaves out. */
  datatype Error =
    | Unauthenticated
    | BadCredentials
    | NotFound
    | Conflict
    | Unhandled

  /** The status code each error is answered with. */
  function Status(e: Error): int {
    match e
    case Unauthenticated => 401
    case BadCredentials => 400
    case NotFound => 404
    case Conflict => 409
    case Unhandled => 500
  }

  /** A handler's outcome; usable with `:-`. */
  datatype Result<+T> = Ok(value: T) | Err(error: Error) {

    predicate IsFailure() {
      Err?
    }

    function PropagateFailure<U>(): Result<U>
      requires Err?
    {
      Err(error)
    }

    function Extract(): T
      requires Ok?
    {
      value
    }
  }
}

=== FILE: isolation.dfy ===
/** Owner isolation: what a user's request reads depends only on that
    user's todos, and what it writes leaves every other user's todos as they
    were. */
module Isolation {
  import opened Common
  import opened Tables
  import opened Store
  import opened Todos

  lemma {:induction false} OwnedByAppend(rows: seq<Todo>, t: Todo, ownerId: int)
    ensures OwnedBy(rows + [t], ownerId) == OwnedBy(rows, ownerId) + (if t.ownerId == ownerId then [t] else [])
  {
    if |rows| == 0 {
      assert [t][1..] == [];
    } else {
      assert (rows + [t])[1..] == rows[1..] + [t];
      OwnedByAppend(rows[1..], t, ownerId);
    }
  }

  lemma {:induction false} OwnedByReplace(rows: seq<Todo>, row: Todo, ownerId: int)
    requires row.ownerId != ownerId
    requires forall i :: 0 <= i < |rows| && rows[i].id == row.id ==> rows[i].ownerId != ownerId
    ensures OwnedBy(Replace(rows, TodoKey, row), ownerId) == OwnedBy(rows, ownerId)
  {
    if |rows| > 0 {
      assert Replace(rows, TodoKey, row)[1..] == Replace(rows[1..], TodoKey, row);
      assert forall i :: 1 <= i < |rows| ==> rows[1..][i - 1] == rows[i];
      OwnedByReplace(rows[1..], row, ownerId);
    }
  }

  lemma {:induction false} OwnedByRemove(rows: seq<Todo>, id: int, ownerId: int)
    requires forall i :: 0 <= i < |rows| && rows[i].id == id ==> rows[i].ownerId != ownerId
    ensures OwnedBy(Remove(rows, TodoKey, id), ownerId) == OwnedBy(rows, ownerId)
  {
    if |rows| > 0 {
      assert forall i :: 1 <= i < |rows| ==> rows[1..][i - 1] == rows[i];
      OwnedByRemove(rows[1..], id, ownerId);
      if rows[0].id != id {
        assert ([rows[0]] + Remove(rows[1..], TodoKey, id))[1..] == Remove(rows[1..], TodoKey, id);
      }
    }
  }

  /** In an ordered table the only row with the guarded id is the guarded
      todo, which the caller owns. */
  lemma GuardedRowIsOnlyOne(s: Store, me: User, todoId: int)
    requires Ordered(s.todos, TodoKey)
    requires OwnedTodo(s, me, todoId).Ok?
    ensures forall i :: 0 <= i < |s.todos| && s.todos[i].id == todoId ==> s.todos[i].ownerId == me.id
  {
    var t := OwnedTodo(s, me, todoId).value;
    var k :| 0 <= k < |s.todos| && s.todos[k] == t;
    assert forall i :: 0 <= i < |s.todos| && s.todos[i].id == todoId ==> i == k;
  }

  /** Creating a todo leaves every other user's todos unchanged. */
  lemma CreateLeavesOthers(s: Store, me: User, now: Timestamp, title: string, description: Option<string>, other: int)
    requires 1 <= |title| <= 200
    requires Ordered(s.todos, TodoKey)
    requires other != me.id
    ensures OwnedBy(CreateTodo(s, me, now, title, description).0.todos, other) == OwnedBy(s.todos, other)
  {
    var (s', t) := CreateTodo(s, me, now, title, description);
    OwnedByAppend(s.todos, t, other);
  }

  /** Updating a todo leaves every other user's todos unchanged. */
  lemma UpdateLeavesOthers(s: Store, me: User, now: Timestamp, todoId: int,
                           title: Option<string>, description: Option<string>, other: int)
    requires title.Some? ==> 1 <= |title.value| <= 200
    requires Ordered(s.todos, TodoKey)
    requires other != me.id
    requires UpdateTodo(s, me, now, todoId, title, description).Ok?
    ensures OwnedBy(UpdateTodo(s, me, now, todoId, title, description).value.0.todos, other)
         == OwnedBy(s.todos, other)
  {
    GuardedRowIsOnlyOne(s, me, todoId);
    var (s', t') := UpdateTodo(s, me, now, todoId, title, description).value;
    assert s'.todos == Replace(s.todos, TodoKey, t');
    OwnedByReplace(s.todos, t', other);
  }

  /** Deleting a todo leaves every other user's todos unchanged. */
  lemma DeleteLeavesOthers(s: Store, me: User, todoId: int, other: int)
    requires Ordered(s.todos, TodoKey)
    requires other != me.id
    requires DeleteTodo(s, me, todoId).Ok?
    ensures OwnedBy(DeleteTodo(s, me, todoId).value.todos, other) == OwnedBy(s.todos, other)
  {
    GuardedRowIsOnlyOne(s, me, todoId);
    OwnedByRemove(s.todos, todoId, other);
  }

  /** The guard's answer is a lookup among the caller's own todos. */
  lemma GuardReadsOwnTodos(s: Store, me: User, todoId: int)
    requires Ordered(s.todos, TodoKey)
    ensures var f := Find(OwnedBy(s.todos, me.id), TodoKey, todoId);
            OwnedTodo(s, me, todoId) == if f.Some? then Ok(f.value) else Err(NotFound)
  {
    var own := OwnedBy(s.todos, me.id);
    OwnedByOrdered(s.todos, me.id);
    if exists i :: 0 <= i < |s.todos| && s.todos[i].id == todoId && s.todos[i].ownerId == me.id {
      var i :| 0 <= i < |s.todos| && s.todos[i].id == todoId && s.todos[i].ownerId == me.id;
      OwnedTodoFound(s, me, i);
      assert s.todos[i] in own;
      var m :| 0 <= m < |own| && own[m] == s.todos[i];
      FindInOrdered(own, TodoKey, m);
    } else {
      forall m | 0 <= m < |own|
        ensures own[m].id != todoId
      {
        assert own[m] in s.todos;
      }
    }
  }

  /** Get, update and delete cannot tell a store in which the id is
      missing or belongs to someone else from any other store in which the
      caller owns the same todos: all answers agree, in particular the
      `NotFound`. */
  lemma GuardSeesOnlyOwnTodos(s1: Store, s2: Store, me: User, now: Timestamp, todoId: int,
                              title: Option<string>, description: Option<string>)
    requires Ordered(s1.todos, TodoKey) && Ordered(s2.todos, TodoKey)
    requires OwnedBy(s1.todos, me.id) == OwnedBy(s2.todos, me.id)
    requires title.Some? ==> 1 <= |title.value| <= 200
    ensures GetTodo(s1, me, todoId) == GetTodo(s2, me, todoId)
    ensures var u1, u2 := UpdateTodo(s1, me, now, todoId, title, description),
                          UpdateTodo(s2, me, now, todoId, title, description);
      && (u1.Err? <==> u2.Err?)
      && (u1.Ok? ==> u1.value.1 == u2.value.1)
    ensures DeleteTodo(s1, me, todoId).Err? <==> DeleteTodo(s2, me, todoId).Err?
  {
    GuardReadsOwnTodos(s1, me, todoId);
    GuardReadsOwnTodos(s2, me, todoId);
  }
}

=== FILE: listing.dfy ===
/** The list query: how it is executed, and which rows it returns in
    which order. */
module Listing {
  import opened Common
  import opened Tables
  import opened Store
  import opened Todos

  /** The list query as the storage engine runs it: walk the table from
      the highest id down, count the selected rows met, and keep those whose
      position falls in the window `[skip, skip + limit)`. It returns
      exactly the reference result. */
  method ListTodosByScan(s: Store, me: User, q: Option<string>, skip: nat, limit: nat) returns (items: seq<Todo>)
    requires 1 <= limit <= 100
    ensures items == ListTodos(s, me, q, skip, limit)
  {
    items := [];
    var seen := 0;
    var i := |s.todos|;
    while i > 0
      invariant 0 <= i <= |s.todos|
      invariant seen == |Selected(s.todos[i..], me.id, q)|
      invariant items == Page(Reverse(Selected(s.todos[i..], me.id, q)), skip, limit)
    {
      i := i - 1;
      var t := s.todos[i];
      ghost var before := Selected(s.todos[i + 1..], me.id, q);
      assert s.todos[i..][1..] == s.todos[i + 1..];
      if Visible(t, me.id, q) {
        assert Selected(s.todos[i..], me.id, q) == [t] + before;
        assert ([t] + before)[1..] == before;
        PageAppend(Reverse(before), t, skip, limit);
        if skip <= seen < skip + limit {
          items := items + [t];
        }
        seen := seen + 1;
      }
    }
    assert s.todos[0..] == s.todos;
  }

  /** How many rows of `rows` have an id above `id`. */
  function CountAbove(rows: seq<Todo>, id: int): nat {
    if |rows| == 0 then 0
    else (if rows[0].id > id then 1 else 0) + CountAbove(rows[1..], id)
  }

  /** The rank of a todo in the caller's listing: how many of the caller's
      todos matching `q` have a larger id. */
  function Rank(s: Store, me: User, q: Option<string>, t: Todo): nat {
    CountAbove(Selected(s.todos, me.id, q), t.id)
  }

  lemma {:induction false} CountAboveAll(rows: seq<Todo>, id: int)
    requires forall k :: 0 <= k < |rows| ==> rows[k].id > id
    ensures CountAbove(rows, id) == |rows|
  {
    if |rows| > 0 {
      assert forall k :: 0 <= k < |rows| - 1 ==> rows[1..][k] == rows[k + 1];
      CountAboveAll(rows[1..], id);
    }
  }

  /** In an ordered sequence exactly the rows after position `j` have a
      larger id than the row at `j`. */
  lemma {:induction false} CountAboveInOrdered(rows: seq<Todo>, j: int)
    requires Ordered(rows, TodoKey)
    requires 0 <= j < |rows|
    ensures CountAbove(rows, rows[j].id) == |rows| - 1 - j
  {
    if j == 0 {
      assert forall k :: 0 <= k < |rows| - 1 ==> rows[1..][k] == rows[k + 1];
      CountAboveAll(rows[1..], rows[0].id);
    } else {
      assert rows[0].id < rows[j].id;
      assert rows[1..][j - 1] == rows[j];
      CountAboveInOrdered(rows[1..], j - 1);
    }
  }

  /** Pagination: in a valid table, one of the caller's todos matching `q`
      is on the page exactly when its rank lies in `[skip, skip + limit)`.
      Together with the descending order of the page this fixes the page. */
  lemma ListWindow(s: Store, me: User, q: Option<string>, skip: nat, limit: nat, t: Todo)
    requires 1 <= limit <= 100
    requires Ordered(s.todos, TodoKey)
    requires t in s.todos && Visible(t, me.id, q)
    ensures t in ListTodos(s, me, q, skip, limit) <==> skip <= Rank(s, me, q, t) < skip + limit
  {
    var rows := Selected(s.todos, me.id, q);
    var k :| 0 <= k < |s.todos| && s.todos[k] == t;
    assert t in rows;
    var j :| 0 <= j < |rows| && rows[j] == t;
    SelectedOrdered(s.todos, me.id, q);
    CountAboveInOrdered(rows, j);
    ReverseOrderedDistinct(rows, TodoKey);
    PageHolds(Reverse(rows), skip, limit, |rows| - 1 - j);
  }

  /** `skip = 0, limit = 1` answers with the caller's matching todo of
      highest id, i.e. the most recently created. */
  lemma ListNewestFirst(s: Store, me: User, q: Option<string>, k: int)
    requires Ordered(s.todos, TodoKey)
    requires 0 <= k < |s.todos| && Visible(s.todos[k], me.id, q)
    ensures var r := ListTodos(s, me, q, 0, 1);
      && |r| == 1
      && r[0] in s.todos && Visible(r[0], me.id, q)
      && forall i :: 0 <= i < |s.todos| && Visible(s.todos[i], me.id, q) ==> s.todos[i].id <= r[0].id
  {
    var rows := Selected(s.todos, me.id, q);
    SelectedOrdered(s.todos, me.id, q);
    assert s.todos[k] in rows;
    var r := ListTodos(s, me, q, 0, 1);
    var last := |rows| - 1;
    assert r == Page(Reverse(rows), 0, 1);
    assert Reverse(rows)[0] == rows[last];
    assert r[0] == rows[last];
    LastHasLargestId(rows);
    forall i | 0 <= i < |s.todos| && Visible(s.todos[i], me.id, q)
      ensures s.todos[i].id <= r[0].id
    {
      assert s.todos[i] in rows;
    }
  }

  /** The last row of an ordered sequence has the largest id. */
  lemma LastHasLargestId(rows: seq<Todo>)
    requires Ordered(rows, TodoKey) && |rows| > 0
    ensures forall t :: t in rows ==> t.id <= rows[|rows| - 1].id
  {
    forall t | t in rows
      ensures t.id <= rows[|rows| - 1].id
    {
      var m :| 0 <= m < |rows| && rows[m] == t;
      assert m < |rows| - 1 ==> TodoKey(rows[m]) < TodoKey(rows[|rows| - 1]);
    }
  }

  lemma {:induction false} SelectedWithinOwned(rows: seq<Todo>, ownerId: int, q: Option<string>)
    ensures Selected(rows, ownerId, q) == Selected(OwnedBy(rows, ownerId), ownerId, q)
  {
    if |rows| > 0 {
      SelectedWithinOwned(rows[1..], ownerId, q);
      if rows[0].ownerId == ownerId {
        assert ([rows[0]] + OwnedBy(rows[1..], ownerId))[1..] == OwnedBy(rows[1..], ownerId);
      }
    }
  }

  /** Owner isolation for listing: what the caller sees depends on nothing
      but the caller's own todos. */
  lemma ListSeesOnlyOwnTodos(s1: Store, s2: Store, me: User, q: Option<string>, skip: nat, limit: nat)
    requires 1 <= limit <= 100
    requires OwnedBy(s1.todos, me.id) == OwnedBy(s2.todos, me.id)
    ensures ListTodos(s1, me, q, skip, limit) == ListTodos(s2, me, q, skip, limit)
  {
    SelectedWithinOwned(s1.todos, me.id, q);
    SelectedWithinOwned(s2.todos, me.id, q);
  }

  /** A todo just created is what the unfiltered first page of size one
      shows its owner. */
  lemma CreateThenListNewest(s: Store, me: User, now: Timestamp, title: string, description: Option<string>)
    requires 1 <= |title| <= 200
    requires Ordered(s.todos, TodoKey)
    ensures var (s', t) := CreateTodo(s, me, now, title, description);
            ListTodos(s', me, None, 0, 1) == [t]
  {
    var (s', t) := CreateTodo(s, me, now, title, description);
    var k := |s.todos|;
    assert s'.todos[k] == t;
    ListNewestFirst(s', me, None, k);
    var r := ListTodos(s', me, None, 0, 1);
    var m :| 0 <= m < |s'.todos| && s'.todos[m] == r[0];
    assert r == [t];
  }
}

=== FILE: service.dfy ===
/** The service as a state machine: one request in, the store after it and
    the response out. Protected routes resolve the caller first; a failed
    resolution answers before any handler runs. */
module Service {
  import opened Common
  import opened Text
  import opened Tables
  import opened Store
  import opened Auth
  import opened Todos
  import opened Isolation

  datatype Request =
    | SignupRequest(email: string, password: string, fullName: Option<string>)
    | LoginRequest(username: string, password: string)
    | MeRequest(token: string)
    | CreateTodoRequest(token: string, title: string, description: Option<string>)
    | ListTodosRequest(token: string, q: Option<string>, skip: int, limit: int)
    | GetTodoRequest(token: string, todoId: int)
    | UpdateTodoRequest(token: string, todoId: int, newTitle: Option<string>, newDescription: Option<string>)
    | DeleteTodoRequest(token: string, todoId: int)

  /** Every route but sign-up and login needs a bearer token. */
  predicate Protected(req: Request) {
    !req.SignupRequest? && !req.LoginRequest?
  }

  /** The bounds request validation enforces before a handler runs. */
  predicate WellFormed(req: Request) {
    match req
    case SignupRequest(_, password, _) => 6 <= |password|
    case CreateTodoRequest(_, title, _) => 1 <= |title| <= 200
    case ListTodosRequest(_, _, skip, limit) => 0 <= skip && 1 <= limit <= 100
    case UpdateTodoRequest(_, _, title, _) => title.Some? ==> 1 <= |title.value| <= 200
    case _ => true
  }

  datatype Body =
    | UserBody(user: UserOut)
    | TokenBody(token: TokenOut)
    | TodoBody(todo: Todo)
    | TodoListBody(todos: seq<Todo>)
    | NoBody

  datatype Response = Success(status: int, body: Body) | Failure(error: Error)

  /** The status code the response is sent with. */
  function Code(r: Response): int {
    match r
    case Success(status, _) => status
    case Failure(e) => Status(e)
  }

  /** Runs a protected route's handler for the resolved caller `me`. */
  function Serve(s: Store, now: Timestamp, me: User, req: Request): (r: (Store, Response))
    requires Protected(req) && WellFormed(req)
    requires Valid(s)
    ensures r.1.Failure? ==> r.0 == s && r.1.error == NotFound
    ensures r.1.Success? ==> r.1.status == 200 || r.1.status == 201 || r.1.status == 204
    ensures r.1.Success? ==> (r.1.status == 201 <==> req.CreateTodoRequest?) && (r.1.status == 204 <==> req.DeleteTodoRequest?)
    ensures r.0.users == s.users
  {
    match req
    case MeRequest(_) =>
      (s, Success(200, UserBody(Public(me))))
    case CreateTodoRequest(_, title, description) =>
      var (s', t) := CreateTodo(s, me, now, title, description);
      (s', Success(201, TodoBody(t)))
    case ListTodosRequest(_, q, skip, limit) =>
      (s, Success(200, TodoListBody(ListTodos(s, me, q, skip, limit))))
    case GetTodoRequest(_, todoId) =>
      (match GetTodo(s, me, todoId)
       case Err(e) => (s, Failure(e))
       case Ok(t) => (s, Success(200, TodoBody(t))))
    case UpdateTodoRequest(_, todoId, title, description) =>
      (match UpdateTodo(s, me, now, todoId, title, description)
       case Err(e) => (s, Failure(e))
       case Ok((s', t)) => (s', Success(200, TodoBody(t))))
    case DeleteTodoRequest(_, todoId) =>
      (match DeleteTodo(s, me, todoId)
       case Err(e) => (s, Failure(e))
       case Ok(s') => (s', Success(204, NoBody)))
  }

  /** One request against the store at time `now`. Errors never change the
      store; reads never change it; protected routes never touch `users`
      and sign-up never touches `todos`. */
  function Handle(env: Env, s: Store, now: Timestamp, req: Request): (r: (Store, Response))
    requires Valid(s)
    requires WellFormed(req)
    ensures r.1.Failure? ==> r.0 == s
    ensures req.LoginRequest? || req.MeRequest? || req.ListTodosRequest? || req.GetTodoRequest? ==> r.0 == s
    ensures req.SignupRequest? ==> r.0.todos == s.todos
    ensures Protected(req) ==> r.0.users == s.users
    ensures Protected(req) && CurrentUser(env, s, now, req.token).Err? ==>
      r == (s, Failure(CurrentUser(env, s, now, req.token).error))
  {
    match req
    case SignupRequest(email, password, fullName) =>
      (match Signup(env, s, now, email, password, fullName)
       case Err(e) => (s, Failure(e))
       case Ok((s', u)) => (s', Success(201, UserBody(u))))
    case LoginRequest(username, password) =>
      (match Login(env, s, now, username, password)
       case Err(e) => (s, Failure(e))
       case Ok(t) => (s, Success(200, TokenBody(t))))
    case _ =>
      match CurrentUser(env, s, now, req.token)
      case Err(e) => (s, Failure(e))
      case Ok(me) => Serve(s, now, me, req)
  }

  /** The token cases that end in 401: the decoder rejects the token, or
      its subject names no active user. */
  ghost predicate RejectedToken(env: Env, s: Store, now: Timestamp, token: string) {
    || env.decode(token, now).None?
    || (&& SubjectId(env.decode(token, now).value).Some?
        && forall i :: 0 <= i < |s.users| && s.users[i].id == SubjectId(env.decode(token, now).value).value
             ==> !s.users[i].isActive)
  }

  /** A uniform 401: a protected request answers `Unauthenticated`, leaving
      the store as it was, exactly when its token is rejected, whichever
      route it is for and whichever of the causes applies. */
  lemma UniformUnauthenticated(env: Env, s: Store, now: Timestamp, req: Request)
    requires Valid(s) && WellFormed(req) && Protected(req)
    ensures Handle(env, s, now, req) == (s, Failure(Unauthenticated))
        <==> RejectedToken(env, s, now, req.token)
  {
    var d := env.decode(req.token, now);
    if d.Some? && SubjectId(d.value).Some? && !RejectedToken(env, s, now, req.token) {
      var i :| 0 <= i < |s.users| && s.users[i].id == SubjectId(d.value).value && s.users[i].isActive;
      ResolvesActiveUser(env, s, now, req.token, i);
    }
  }

  /** The status line alone tells the same story: a protected request is
      answered with 401 exactly when its token is rejected. No handler
      answers 401 on its own, and a success never carries it. */
  lemma UnauthenticatedStatus(env: Env, s: Store, now: Timestamp, req: Request)
    requires Valid(s) && WellFormed(req) && Protected(req)
    ensures Code(Handle(env, s, now, req).1) == 401 <==> RejectedToken(env, s, now, req.token)
  {
    UniformUnauthenticated(env, s, now, req);
    match CurrentUser(env, s, now, req.token)
    case Err(e) =>
    case Ok(me) =>
      assert Handle(env, s, now, req) == Serve(s, now, me, req);
  }

  lemma SignupKeepsValid(env: Env, s: Store, now: Timestamp, email: string, password: string, fullName: Option<string>)
    requires Valid(s) && 6 <= |password|
    requires Signup(env, s, now, email, password, fullName).Ok?
    ensures Valid(Signup(env, s, now, email, password, fullName).value.0)
  {
    var s' := Signup(env, s, now, email, password, fullName).value.0;
    var n := |s.users|;
    assert forall i :: 0 <= i < n ==> s'.users[i] == s.users[i];
    forall i | 0 <= i < |s'.todos|
      ensures HasKey(s'.users, UserKey, s'.todos[i].ownerId)
    {
      var j :| 0 <= j < n && s.users[j].id == s.todos[i].ownerId;
      assert s'.users[j].id == s'.todos[i].ownerId;
    }
  }

  lemma CreateKeepsValid(s: Store, me: User, now: Timestamp, title: string, description: Option<string>)
    requires Valid(s) && 1 <= |title| <= 200
    requires me in s.users
    ensures Valid(CreateTodo(s, me, now, title, description).0)
  {
    var (s', t) := CreateTodo(s, me, now, title, description);
    var j :| 0 <= j < |s.users| && s.users[j] == me;
    assert UserKey(s.users[j]) == t.ownerId;
    assert forall i :: 0 <= i < |s.todos| ==> s'.todos[i] == s.todos[i];
  }

  lemma UpdateKeepsValid(s: Store, me: User, now: Timestamp, todoId: int, title: Option<string>, description: Option<string>)
    requires Valid(s) && (title.Some? ==> 1 <= |title.value| <= 200)
    requires UpdateTodo(s, me, now, todoId, title, description).Ok?
    ensures Valid(UpdateTodo(s, me, now, todoId, title, description).value.0)
  {
    var (s', t') := UpdateTodo(s, me, now, todoId, title, description).value;
    var t := OwnedTodo(s, me, todoId).value;
    var k :| 0 <= k < |s.todos| && s.todos[k] == t;
    assert s'.users == s.users;
    assert s'.todos == Replace(s.todos, TodoKey, t');
    ReplaceOrdered(s.todos, TodoKey, t');
    forall i | 0 <= i < |s'.todos|
      ensures HasKey(s'.users, UserKey, s'.todos[i].ownerId)
    {
      if s.todos[i].id == todoId {
        assert s'.todos[i].ownerId == s.todos[k].ownerId;
        assert HasKey(s.users, UserKey, s.todos[k].ownerId);
      } else {
        assert s'.todos[i] == s.todos[i];
        assert HasKey(s.users, UserKey, s.todos[i].ownerId);
      }
    }
  }

  lemma DeleteKeepsValid(s: Store, me: User, todoId: int)
    requires Valid(s)
    requires DeleteTodo(s, me, todoId).Ok?
    ensures Valid(DeleteTodo(s, me, todoId).value)
  {
    var s' := DeleteTodo(s, me, todoId).value;
    forall i | 0 <= i < |s'.todos|
      ensures HasKey(s'.users, UserKey, s'.todos[i].ownerId)
    {
      var j :| 0 <= j < |s.todos| && s.todos[j] == s'.todos[i];
    }
  }

  /** Every request keeps the store valid: tables in key order, emails
      unique without regard to case, every todo's owner present. */
  lemma HandleKeepsValid(env: Env, s: Store, now: Timestamp, req: Request)
    requires Valid(s) && WellFormed(req)
    ensures Valid(Handle(env, s, now, req).0)
  {
    if req.SignupRequest? {
      if Signup(env, s, now, req.email, req.password, req.fullName).Ok? {
        SignupKeepsValid(env, s, now, req.email, req.password, req.fullName);
      }
    } else if Protected(req) && CurrentUser(env, s, now, req.token).Ok? {
      var me := CurrentUser(env, s, now, req.token).value;
      if req.CreateTodoRequest? {
        CreateKeepsValid(s, me, now, req.title, req.description);
      } else if req.UpdateTodoRequest? {
        if UpdateTodo(s, me, now, req.todoId, req.newTitle, req.newDescription).Ok? {
          UpdateKeepsValid(s, me, now, req.todoId, req.newTitle, req.newDescription);
        }
      } else if req.DeleteTodoRequest? {
        if DeleteTodo(s, me, req.todoId).Ok? {
          DeleteKeepsValid(s, me, req.todoId);
        }
      }
    }
  }

  /** Owner isolation: a protected request made as one user leaves every
      other user's todos exactly as they were. */
  lemma HandleLeavesOthers(env: Env, s: Store, now: Timestamp, req: Request, other: int)
    requires Valid(s) && WellFormed(req) && Protected(req)
    requires CurrentUser(env, s, now, req.token).Ok?
    requires other != CurrentUser(env, s, now, req.token).value.id
    ensures OwnedBy(Handle(env, s, now, req).0.todos, other) == OwnedBy(s.todos, other)
  {
    var me := CurrentUser(env, s, now, req.token).value;
    match req
    case CreateTodoRequest(_, title, description) =>
      CreateLeavesOthers(s, me, now, title, description, other);
    case UpdateTodoRequest(_, todoId, title, description) =>
      if UpdateTodo(s, me, now, todoId, title, description).Ok? {
        UpdateLeavesOthers(s, me, now, todoId, title, description, other);
      }
    case DeleteTodoRequest(_, todoId) =>
      if DeleteTodo(s, me, todoId).Ok? {
        DeleteLeavesOthers(s, me, todoId, other);
      }
    case _ =>
  }

  /** Signing up twice with the same email, in any letter case, is refused
      the second time. */
  lemma SignupTwiceConflicts(env: Env, s: Store, now: Timestamp, later: Timestamp,
                             email: string, again: string, password: string, fullName: Option<string>)
    requires Valid(s) && 6 <= |password|
    requires SameIgnoringCase(email, again)
    requires Signup(env, s, now, email, password, fullName).Ok?
    ensures var s' := Signup(env, s, now, email, password, fullName).value.0;
            Handle(env, s', later, SignupRequest(again, password, fullName)) == (s', Failure(Conflict))
  {
    var s' := Signup(env, s, now, email, password, fullName).value.0;
    SignupKeepsValid(env, s, now, email, password, fullName);
    assert SameIgnoringCase(s'.users[|s.users|].email, again);
  }

  /** Sign-up, then login with the same password, then a request with the
      issued token resolves to the new user, as long as the hasher verifies
      what it hashed and the decoder accepts the token it issued. */
  lemma SignupLoginResolve(env: Env, s: Store, now: Timestamp, later: Timestamp,
                           email: string, password: string, fullName: Option<string>)
    requires Valid(s) && 6 <= |password|
    requires env.verify(password, env.hash(password))
    requires Signup(env, s, now, email, password, fullName).Ok?
    requires var u := Signup(env, s, now, email, password, fullName).value.1;
             var c := AccessClaims(env, now, u.id);
             env.decode(env.encode(c), later) == Some(c)
    ensures var (s', u) := Signup(env, s, now, email, password, fullName).value;
            var login := Login(env, s', now, email, password);
      && login.Ok?
      && CurrentUser(env, s', later, login.value.accessToken).Ok?
      && Public(CurrentUser(env, s', later, login.value.accessToken).value) == u
  {
    var s' := Signup(env, s, now, email, password, fullName).value.0;
    SignupKeepsValid(env, s, now, email, password, fullName);
    LoginThenResolve(env, s', now, later, email, password, |s.users|);
  }
}

=== FILE: store.dfy ===
/** The persistent state of the service: the `users` and `todos` tables,
    and the collaborators the handlers consult without this model seeing
    inside them (password hashing, token signing and verification). */
module Store {
  import opened Common
  import opened Text
  import opened Tables

  /** Seconds on the service's UTC clock. */
  type Timestamp = int

  /** A row of `users`. */
  datatype User = User(
    id: int,
    email: string,
    fullName: string,
    hashedPassword: string,
    isActive: bool,
    createdAt: Timestamp)

  /** A row of `todos`; `ownerId` references `users`. */
  datatype Todo = Todo(
    id: int,
    title: string,
    description: string,
    ownerId: int,
    createdAt: Timestamp,
    updatedAt: Timestamp)

  /** What the service returns for a user: every column but the hash. */
  datatype UserOut = UserOut(
    id: int,
    email: string,
    fullName: string,
    isActive: bool,
    createdAt: Timestamp)

  function Public(u: User): UserOut {
    UserOut(u.id, u.email, u.fullName, u.isActive, u.createdAt)
  }

  datatype Store = Store(users: seq<User>, todos: seq<Todo>)

  function UserKey(u: User): int {
    u.id
  }

  function TodoKey(t: Todo): int {
    t.id
  }

  /** No two users' emails are equal once lower-cased. */
  ghost predicate EmailsUnique(users: seq<User>) {
    forall i, j :: 0 <= i < j < |users| ==> !SameIgnoringCase(users[i].email, users[j].email)
  }

  /** Every todo's owner is a stored user. */
  ghost predicate OwnersExist(s: Store) {
    forall i :: 0 <= i < |s.todos| ==> HasKey(s.users, UserKey, s.todos[i].ownerId)
  }

  /** The invariant every handler keeps: both tables in primary-key order,
      emails unique without regard to case, todo owners present. */
  ghost predicate Valid(s: Store) {
    && Ordered(s.users, UserKey)
    && Ordered(s.todos, TodoKey)
    && EmailsUnique(s.users)
    && OwnersExist(s)
  }

  /** The claim set of an access token: the subject (absent when the token
      carries none) and the expiry. */
  datatype Claims = Claims(sub: Option<string>, exp: Timestamp)

  /** The collaborators the handlers call but this model does not look
      inside. `hash` and `verify` are the password hasher; `encode` signs a
      claim set with the service's secret and algorithm; `decode` checks a
      token's signature, algorithm and expiry at the given time, `None`
      standing for a rejected token. `expiresMinutes` is the configured token
      lifetime. */
  datatype Env = Env(
    hash: string -> string,
    verify: (string, string) -> bool,
    encode: Claims -> string,
    decode: (string, Timestamp) -> Option<Claims>,
    expiresMinutes: int)

  /** The claim set's `sub` read back as a user id with Python `int()`;
      `None` where that call raises (subject missing or not an integer). */
  function SubjectId(c: Claims): Option<int> {
    match c.sub
    case None => None
    case Some(sub) => ParseInt(sub)
  }
}

=== FILE: tables.dfy ===
/** A table is a sequence of rows kept in primary-key order, the way a
    table stored by its integer primary key is laid out. `key` projects a
    row onto its primary key. */
module Tables {
  import opened Common

  /** Keys strictly increase along the table; in particular they are unique. */
  ghost predicate Ordered<T>(rows: seq<T>, key: T -> int) {
    forall i, j :: 0 <= i < j < |rows| ==> key(rows[i]) < key(rows[j])
  }

  /** Some row of the table has primary key `id`. */
  ghost predicate HasKey<T>(rows: seq<T>, key: T -> int, id: int) {
    exists i :: 0 <= i < |rows| && key(rows[i]) == id
  }

  /** Point lookup by primary key (`session.get`): the first row with key
      `id`, or `None` when there is none. */
  function Find<T>(rows: seq<T>, key: T -> int, id: int): (r: Option<T>)
    ensures r.Some? ==> r.value in rows && key(r.value) == id
    ensures r.None? <==> !HasKey(rows, key, id)
  {
    if |rows| == 0 then None
    else if key(rows[0]) == id then Some(rows[0])
    else
      var r := Find(rows[1..], key, id);
      assert r.None? ==> forall i :: 1 <= i < |rows| ==> key(rows[i]) == key(rows[1..][i - 1]);
      r
  }

  /** In an ordered table a lookup finds exactly the row that has the key. */
  lemma {:induction false} FindInOrdered<T>(rows: seq<T>, key: T -> int, i: int)
    requires Ordered(rows, key)
    requires 0 <= i < |rows|
    ensures Find(rows, key, key(rows[i])) == Some(rows[i])
  {
    if i > 0 {
      assert key(rows[0]) < key(rows[i]);
      assert rows[1..][i - 1] == rows[i];
      FindInOrdered(rows[1..], key, i - 1);
    }
  }

  /** The key the storage engine gives the next inserted row: one more than
      the largest key, or 1 for an empty table. */
  function NextId<T>(rows: seq<T>, key: T -> int): (r: int)
    requires Ordered(rows, key)
    ensures forall i :: 0 <= i < |rows| ==> key(rows[i]) < r
  {
    if |rows| == 0 then 1 else key(rows[|rows| - 1]) + 1
  }

  /** Inserting a row whose key exceeds every key keeps the table ordered. */
  lemma AppendOrdered<T>(rows: seq<T>, key: T -> int, row: T)
    requires Ordered(rows, key)
    requires forall i :: 0 <= i < |rows| ==> key(rows[i]) < key(row)
    ensures Ordered(rows + [row], key)
  {
  }

  /** `UPDATE`: every row whose key is `key(row)` is replaced by `row`; the
      other rows stay where they are. */
  function Replace<T>(rows: seq<T>, key: T -> int, row: T): (r: seq<T>)
    ensures |r| == |rows|
    ensures forall i :: 0 <= i < |rows| ==> r[i] == (if key(rows[i]) == key(row) then row else rows[i])
  {
    if |rows| == 0 then []
    else [if key(rows[0]) == key(row) then row else rows[0]] + Replace(rows[1..], key, row)
  }

  /** Replacing a row by one with the same key leaves the keys, hence the
      order, unchanged. */
  lemma ReplaceOrdered<T>(rows: seq<T>, key: T -> int, row: T)
    requires Ordered(rows, key)
    ensures Ordered(Replace(rows, key, row), key)
  {
    var r := Replace(rows, key, row);
    assert forall i :: 0 <= i < |rows| ==> key(r[i]) == key(rows[i]);
  }

  /** `DELETE ... WHERE key = id`: the table without its rows that have key `id`. */
  function Remove<T>(rows: seq<T>, key: T -> int, id: int): (r: seq<T>)
    ensures forall i :: 0 <= i < |r| ==> r[i] in rows && key(r[i]) != id
    ensures forall i :: 0 <= i < |rows| && key(rows[i]) != id ==> rows[i] in r
    ensures |r| <= |rows|
  {
    if |rows| == 0 then []
    else if key(rows[0]) == id then Remove(rows[1..], key, id)
    else
      var tail := Remove(rows[1..], key, id);
      assert forall i :: 1 <= i < |rows| ==> rows[i] == rows[1..][i - 1];
      [rows[0]] + tail
  }

  /** A row with a smaller key than every row of an ordered table can go in
      front of it. */
  lemma ConsOrdered<T>(x: T, tail: seq<T>, key: T -> int)
    requires Ordered(tail, key)
    requires forall i :: 0 <= i < |tail| ==> key(x) < key(tail[i])
    ensures Ordered([x] + tail, key)
  {
    var r := [x] + tail;
    forall i, j | 0 <= i < j < |r|
      ensures key(r[i]) < key(r[j])
    {
      assert r[j] == tail[j - 1];
      assert i > 0 ==> r[i] == tail[i - 1];
    }
  }

  /** Every row after the first of an ordered table has a larger key. */
  lemma RestAbove<T>(rows: seq<T>, key: T -> int)
    requires Ordered(rows, key) && |rows| > 0
    ensures Ordered(rows[1..], key)
    ensures forall x :: x in rows[1..] ==> key(rows[0]) < key(x)
  {
    var rest := rows[1..];
    assert forall k :: 0 <= k < |rest| ==> rest[k] == rows[k + 1];
  }

  /** Deleting by key keeps an ordered table ordered. */
  lemma {:induction false} RemoveOrdered<T>(rows: seq<T>, key: T -> int, id: int)
    requires Ordered(rows, key)
    ensures Ordered(Remove(rows, key, id), key)
  {
    if |rows| > 0 {
      RestAbove(rows, key);
      RemoveOrdered(rows[1..], key, id);
      var tail := Remove(rows[1..], key, id);
      if key(rows[0]) != id {
        ConsOrdered(rows[0], tail, key);
      }
    }
  }

  /** Removing a key that an ordered table holds removes exactly one row. */
  lemma {:induction false} RemoveOneRow<T>(rows: seq<T>, key: T -> int, id: int)
    requires Ordered(rows, key)
    requires HasKey(rows, key, id)
    ensures |Remove(rows, key, id)| == |rows| - 1
  {
    if key(rows[0]) == id {
      RemoveAbsent(rows[1..], key, id);
    } else {
      var i :| 0 <= i < |rows| && key(rows[i]) == id;
      assert rows[1..][i - 1] == rows[i];
      RemoveOneRow(rows[1..], key, id);
    }
  }

  /** Removing a key the table does not hold changes nothing. */
  lemma {:induction false} RemoveAbsent<T>(rows: seq<T>, key: T -> int, id: int)
    requires forall i :: 0 <= i < |rows| ==> key(rows[i]) != id
    ensures Remove(rows, key, id) == rows
  {
    if |rows| > 0 {
      RemoveAbsent(rows[1..], key, id);
    }
  }

  /** `ORDER BY ... DESC` on an ordered sequence: the same rows, last first. */
  function Reverse<T>(s: seq<T>): (r: seq<T>)
    ensures |r| == |s|
    ensures forall i :: 0 <= i < |s| ==> r[i] == s[|s| - 1 - i]
  {
    if |s| == 0 then [] else Reverse(s[1..]) + [s[0]]
  }

  function Min(a: int, b: int): int {
    if a <= b then a else b
  }

  /** `OFFSET skip LIMIT limit`: drop the first `skip` rows, keep at most
      `limit` of the rest. */
  function Page<T>(s: seq<T>, skip: nat, limit: nat): (r: seq<T>)
    ensures |r| == Min(limit, |s| - Min(skip, |s|))
    ensures forall i :: 0 <= i < |r| ==> r[i] == s[skip + i]
  {
    var from := Min(skip, |s|);
    s[from..Min(from + limit, |s|)]
  }

  /** Appending one row to a sequence adds it to the page exactly when its
      position falls inside the window. */
  lemma PageAppend<T>(s: seq<T>, x: T, skip: nat, limit: nat)
    ensures Page(s + [x], skip, limit)
         == if skip <= |s| < skip + limit then Page(s, skip, limit) + [x] else Page(s, skip, limit)
  {
    var p, q := Page(s + [x], skip, limit), Page(s, skip, limit);
    if skip <= |s| < skip + limit {
      assert |p| == |q| + 1;
      assert p == q + [x];
    } else {
      assert |p| == |q|;
      assert p == q;
    }
  }

  /** Every row on a page of a sequence read backwards is a row of the
      sequence. */
  lemma PageOfReverseWithin<T>(s: seq<T>, skip: nat, limit: nat)
    ensures var p := Page(Reverse(s), skip, limit);
            forall i :: 0 <= i < |p| ==> p[i] in s
  {
    var p := Page(Reverse(s), skip, limit);
    forall i | 0 <= i < |p|
      ensures p[i] in s
    {
      assert p[i] == s[|s| - 1 - (skip + i)];
    }
  }

  /** Keys strictly decrease along the sequence. */
  ghost predicate Descending<T>(rows: seq<T>, key: T -> int) {
    forall i, j :: 0 <= i < j < |rows| ==> key(rows[i]) > key(rows[j])
  }

  /** A page of an ordered table read backwards lists keys in strictly
      descending order. */
  lemma PageOfReverseDescends<T>(s: seq<T>, key: T -> int, skip: nat, limit: nat)
    requires Ordered(s, key)
    ensures Descending(Page(Reverse(s), skip, limit), key)
  {
    var p := Page(Reverse(s), skip, limit);
    forall i, j | 0 <= i < j < |p|
      ensures key(p[i]) > key(p[j])
    {
      assert p[i] == s[|s| - 1 - (skip + i)];
      assert p[j] == s[|s| - 1 - (skip + j)];
    }
  }

  /** No row occurs twice. */
  ghost predicate Distinct<T>(s: seq<T>) {
    forall a, b :: 0 <= a < b < |s| ==> s[a] != s[b]
  }

  /** Reversing an ordered table lists each row once. */
  lemma ReverseOrderedDistinct<T>(rows: seq<T>, key: T -> int)
    requires Ordered(rows, key)
    ensures Distinct(Reverse(rows))
  {
    var d := Reverse(rows);
    forall a, b | 0 <= a < b < |d|
      ensures d[a] != d[b]
    {
      assert key(rows[|rows| - 1 - b]) < key(rows[|rows| - 1 - a]);
    }
  }

  /** In a sequence without repeats, the row at position `p` is on the page
      exactly when `p` lies in `[skip, skip + limit)`. */
  lemma PageHolds<T>(s: seq<T>, skip: nat, limit: nat, p: int)
    requires Distinct(s)
    requires 0 <= p < |s|
    ensures s[p] in Page(s, skip, limit) <==> skip <= p < skip + limit
  {
    var r := Page(s, skip, limit);
    if skip <= p < skip + limit {
      assert r[p - skip] == s[p];
    }
    if s[p] in r {
      var m :| 0 <= m < |r| && r[m] == s[p];
      assert s[skip + m] == s[p];
    }
  }
}

=== FILE: text.dfy ===
/** The string operations the service relies on: case folding for email
    comparison and search, substring search for `ILIKE '%q%'`, and the
    conversions between a user id and the token's `sub` claim. */
module Text {
  import opened Common

  /** Case folding of one character; only ASCII letters fold. */
  function LowerChar(c: char): char {
    if 'A' <= c <= 'Z' then (c as int - 'A' as int + 'a' as int) as char else c
  }

  /** `s.lower()` and SQL `lower(s)`, with ASCII folding. */
  function Lower(s: string): (r: string)
    ensures |r| == |s|
    ensures forall i :: 0 <= i < |s| ==> r[i] == LowerChar(s[i])
  {
    if |s| == 0 then [] else [LowerChar(s[0])] + Lower(s[1..])
  }

  /** Two strings are equal once both are lower-cased. */
  predicate SameIgnoringCase(a: string, b: string) {
    Lower(a) == Lower(b)
  }

  predicate IsPrefix(p: string, s: string) {
    |p| <= |s| && s[..|p|] == p
  }

  /** `t` occurs in `s` at position `i`. */
  ghost predicate OccursAt(s: string, t: string, i: int) {
    0 <= i && i + |t| <= |s| && s[i..i + |t|] == t
  }

  /** Whether `t` occurs contiguously in `s`: `s LIKE '%t%'` for a `t`
      without wildcards. */
  predicate Contains(s: string, t: string)
    decreases |s|
  {
    IsPrefix(t, s) || (|s| > 0 && Contains(s[1..], t))
  }

  /** The scanning definition of `Contains` agrees with the positional one,
      in both directions. */
  lemma {:induction false} ContainsIffOccurs(s: string, t: string)
    ensures Contains(s, t) <==> exists i :: OccursAt(s, t, i)
    decreases |s|
  {
    if IsPrefix(t, s) {
      assert OccursAt(s, t, 0);
    } else if |s| > 0 {
      ContainsIffOccurs(s[1..], t);
      if exists i :: OccursAt(s[1..], t, i) {
        var i :| OccursAt(s[1..], t, i);
        assert s[1..][i..i + |t|] == s[i + 1..i + 1 + |t|];
        assert OccursAt(s, t, i + 1);
      }
      if exists i :: OccursAt(s, t, i) {
        var i :| OccursAt(s, t, i);
        if i != 0 {
          assert s[1..][i - 1..i - 1 + |t|] == s[i..i + |t|];
          assert OccursAt(s[1..], t, i - 1);
        }
      }
    }
  }

  /** `s ILIKE '%t%'`: `t` occurs in `s` once both are lower-cased. */
  predicate ContainsIgnoringCase(s: string, t: string) {
    Contains(Lower(s), Lower(t))
  }

  predicate IsDigit(c: char) {
    '0' <= c <= '9'
  }

  predicate AllDigits(s: string) {
    forall i :: 0 <= i < |s| ==> IsDigit(s[i])
  }

  function DigitChar(d: nat): char
    requires d < 10
  {
    ('0' as int + d) as char
  }

  function DigitValue(c: char): nat
    requires IsDigit(c)
  {
    c as int - '0' as int
  }

  /** Python `str(n)` for `n >= 0`: decimal digits without leading zeros. */
  function NatToString(n: nat): (r: string)
    ensures 1 <= |r| && AllDigits(r)
    ensures 1 < |r| ==> r[0] != '0'
    decreases n
  {
    if n < 10 then [DigitChar(n)] else NatToString(n / 10) + [DigitChar(n % 10)]
  }

  /** Python `str(n)` for any int. */
  function IntToString(n: int): string {
    if n < 0 then "-" + NatToString(-n) else NatToString(n)
  }

  /** The value of a string of decimal digits. */
  function DigitsValue(s: string): nat
    requires AllDigits(s)
    decreases |s|
  {
    if |s| == 0 then 0 else DigitsValue(s[..|s| - 1]) * 10 + DigitValue(s[|s| - 1])
  }

  /** The length of a leading `+` or `-`: 1 when there is one, else 0. */
  function SignLength(s: string): nat {
    if 1 <= |s| && (s[0] == '-' || s[0] == '+') then 1 else 0
  }

  /** Python `int(s)` on a string: an optional sign and one or more decimal
      digits; `None` where Python raises `ValueError`. */
  function ParseInt(s: string): (r: Option<int>)
    ensures r.Some? <==> SignLength(s) < |s| && AllDigits(s[SignLength(s)..])
    ensures r.Some? ==> (r.value < 0 ==> s[0] == '-')
    ensures r.Some? && s[0] == '-' ==> r.value <= 0
  {
    if 2 <= |s| && (s[0] == '-' || s[0] == '+') && AllDigits(s[1..]) then
      var magnitude: int := DigitsValue(s[1..]);
      Some(if s[0] == '-' then -magnitude else magnitude)
    else if 1 <= |s| && AllDigits(s) then
      Some(DigitsValue(s))
    else
      None
  }

  lemma {:induction false} DigitsOfNatToString(n: nat)
    ensures DigitsValue(NatToString(n)) == n
    decreases n
  {
    if n >= 10 {
      var s := NatToString(n);
      assert s[..|s| - 1] == NatToString(n / 10);
      DigitsOfNatToString(n / 10);
    }
  }

  /** `int(str(n)) == n`: the token subject written at login reads back as
      the same user id. */
  lemma ParseIntOfIntToString(n: int)
    ensures ParseInt(IntToString(n)) == Some(n)
  {
    if n < 0 {
      var d := NatToString(-n);
      DigitsOfNatToString(-n);
      assert ("-" + d)[1..] == d;
    } else {
      DigitsOfNatToString(n);
    }
  }

  /** Distinct user ids give distinct subjects. */
  lemma IntToStringInjective(m: int, n: int)
    requires IntToString(m) == IntToString(n)
    ensures m == n
  {
    ParseIntOfIntToString(m);
    ParseIntOfIntToString(n);
  }
}

=== FILE: todos.dfy ===
/** The todo handlers, each given the caller already resolved by
    `Auth.CurrentUser`. Get, update and delete share one owner guard that
    answers a missing todo and another user's todo with the same `NotFound`. */
module Todos {
  import opened Common
  import opened Text
  import opened Tables
  import opened Store

  /** The owner guard: the todo with id `todoId` when it exists and belongs
      to `me`, `NotFound` otherwise. */
  function OwnedTodo(s: Store, me: User, todoId: int): (r: Result<Todo>)
    ensures r.Ok? ==> r.value in s.todos && r.value.id == todoId && r.value.ownerId == me.id
    ensures r.Err? ==> r.error == NotFound
    ensures (forall i :: 0 <= i < |s.todos| && s.todos[i].id == todoId ==> s.todos[i].ownerId != me.id)
            ==> r == Err(NotFound)
  {
    match Find(s.todos, TodoKey, todoId)
    case None => Err(NotFound)
    case Some(t) => if t.ownerId != me.id then Err(NotFound) else Ok(t)
  }

  /** In a valid store the guard lets the owner through to their todo. */
  lemma OwnedTodoFound(s: Store, me: User, i: int)
    requires Ordered(s.todos, TodoKey)
    requires 0 <= i < |s.todos| && s.todos[i].ownerId == me.id
    ensures OwnedTodo(s, me, s.todos[i].id) == Ok(s.todos[i])
  {
    FindInOrdered(s.todos, TodoKey, i);
  }

  /** Create: appends one todo owned by the caller, with a fresh id, the
      given title and the description defaulting to "". */
  function CreateTodo(s: Store, me: User, now: Timestamp, title: string, description: Option<string>)
    : (r: (Store, Todo))
    requires 1 <= |title| <= 200
    requires Ordered(s.todos, TodoKey)
    ensures var (s', t) := r;
      && s'.users == s.users
      && s'.todos == s.todos + [t]
      && (forall i :: 0 <= i < |s.todos| ==> s.todos[i].id < t.id)
      && Ordered(s'.todos, TodoKey)
      && t.ownerId == me.id
      && t.title == title
      && t.description == description.GetOr("")
      && t.createdAt == now && t.updatedAt == now
  {
    var t := Todo(NextId(s.todos, TodoKey), title, description.GetOr(""), me.id, now, now);
    AppendOrdered(s.todos, TodoKey, t);
    (Store(s.users, s.todos + [t]), t)
  }

  /** The todos owned by user `ownerId`, in table order. */
  function OwnedBy(rows: seq<Todo>, ownerId: int): (r: seq<Todo>)
    ensures forall i :: 0 <= i < |r| ==> r[i] in rows && r[i].ownerId == ownerId
    ensures forall i :: 0 <= i < |rows| && rows[i].ownerId == ownerId ==> rows[i] in r
  {
    if |rows| == 0 then []
    else
      var tail := OwnedBy(rows[1..], ownerId);
      assert forall i :: 1 <= i < |rows| ==> rows[i] == rows[1..][i - 1];
      if rows[0].ownerId == ownerId then [rows[0]] + tail else tail
  }

  /** A user's todos, taken from an ordered table, are in key order. */
  lemma {:induction false} OwnedByOrdered(rows: seq<Todo>, ownerId: int)
    requires Ordered(rows, TodoKey)
    ensures Ordered(OwnedBy(rows, ownerId), TodoKey)
  {
    if |rows| > 0 {
      RestAbove(rows, TodoKey);
      OwnedByOrdered(rows[1..], ownerId);
      if rows[0].ownerId == ownerId {
        ConsOrdered(rows[0], OwnedBy(rows[1..], ownerId), TodoKey);
      }
    }
  }

  /** The search filter: no filter for an absent or empty `q`, otherwise `q`
      occurs in the title or the description without regard to case. */
  predicate Matches(t: Todo, q: Option<string>) {
    match q
    case None => true
    case Some(text) =>
      |text| == 0 || ContainsIgnoringCase(t.title, text) || ContainsIgnoringCase(t.description, text)
  }

  predicate Visible(t: Todo, ownerId: int, q: Option<string>) {
    t.ownerId == ownerId && Matches(t, q)
  }

  /** The rows the list query selects, in table order. */
  function Selected(rows: seq<Todo>, ownerId: int, q: Option<string>): (r: seq<Todo>)
    ensures forall i :: 0 <= i < |r| ==> r[i] in rows && Visible(r[i], ownerId, q)
    ensures forall i :: 0 <= i < |rows| && Visible(rows[i], ownerId, q) ==> rows[i] in r
  {
    if |rows| == 0 then []
    else
      var tail := Selected(rows[1..], ownerId, q);
      assert forall i :: 1 <= i < |rows| ==> rows[i] == rows[1..][i - 1];
      if Visible(rows[0], ownerId, q) then [rows[0]] + tail else tail
  }

  /** The rows the list query selects from an ordered table are in key order. */
  lemma {:induction false} SelectedOrdered(rows: seq<Todo>, ownerId: int, q: Option<string>)
    requires Ordered(rows, TodoKey)
    ensures Ordered(Selected(rows, ownerId, q), TodoKey)
  {
    if |rows| > 0 {
      RestAbove(rows, TodoKey);
      SelectedOrdered(rows[1..], ownerId, q);
      if Visible(rows[0], ownerId, q) {
        ConsOrdered(rows[0], Selected(rows[1..], ownerId, q), TodoKey);
      }
    }
  }

  /** Every row the list filter keeps is a visible row of the table. */
  lemma SelectedMembers(rows: seq<Todo>, ownerId: int, q: Option<string>)
    ensures forall t :: t in Selected(rows, ownerId, q) ==> t in rows && Visible(t, ownerId, q)
  {
    var r := Selected(rows, ownerId, q);
    forall t | t in r
      ensures t in rows && Visible(t, ownerId, q)
    {
      var i :| 0 <= i < |r| && r[i] == t;
    }
  }

  /** The list query: the caller's todos matching `q`, highest id first,
      after `skip` rows, at most `limit` of them. */
  function ListTodos(s: Store, me: User, q: Option<string>, skip: nat, limit: nat): (r: seq<Todo>)
    requires 1 <= limit <= 100
    ensures |r| <= limit
    ensures forall i :: 0 <= i < |r| ==> r[i] in s.todos && r[i].ownerId == me.id && Matches(r[i], q)
    ensures Ordered(s.todos, TodoKey) ==> Descending(r, TodoKey)
  {
    var rows := Selected(s.todos, me.id, q);
    var r := Page(Reverse(rows), skip, limit);
    assert forall i :: 0 <= i < |r| ==> r[i] in s.todos && Visible(r[i], me.id, q) by {
      PageOfReverseWithin(rows, skip, limit);
      SelectedMembers(s.todos, me.id, q);
    }
    assert Ordered(s.todos, TodoKey) ==> Descending(r, TodoKey) by {
      if Ordered(s.todos, TodoKey) {
        SelectedOrdered(s.todos, me.id, q);
        PageOfReverseDescends(rows, TodoKey, skip, limit);
      }
    }
    r
  }

  /** Get: the todo when the caller owns it; a missing todo and another
      user's todo both give `NotFound`. */
  function GetTodo(s: Store, me: User, todoId: int): (r: Result<Todo>)
    ensures r.Ok? ==> r.value in s.todos && r.value.id == todoId && r.value.ownerId == me.id
    ensures r.Err? ==> r == Err(NotFound)
    ensures (forall i :: 0 <= i < |s.todos| && s.todos[i].id == todoId ==> s.todos[i].ownerId != me.id)
            ==> r == Err(NotFound)
  {
    OwnedTodo(s, me, todoId)
  }

  /** Partial update: only the provided fields change, `updated_at` becomes
      `now`, and no other row moves or changes. */
  function UpdateTodo(s: Store, me: User, now: Timestamp, todoId: int, title: Option<string>, description: Option<string>)
    : (r: Result<(Store, Todo)>)
    requires title.Some? ==> 1 <= |title.value| <= 200
    ensures r.Err? <==> OwnedTodo(s, me, todoId).Err?
    ensures r.Err? ==> r.error == NotFound
    ensures r.Ok? ==>
      var (s', t') := r.value;
      var t := OwnedTodo(s, me, todoId).value;
      && t'.id == t.id && t'.ownerId == t.ownerId && t'.createdAt == t.createdAt
      && t'.title == (if title.Some? then title.value else t.title)
      && t'.description == (if description.Some? then description.value else t.description)
      && t'.updatedAt == now
      && s'.users == s.users
      && |s'.todos| == |s.todos|
      && forall i :: 0 <= i < |s.todos| ==>
           s'.todos[i] == if s.todos[i].id == todoId then t' else s.todos[i]
  {
    var t :- OwnedTodo(s, me, todoId);
    var t' := t.(title := title.GetOr(t.title), description := description.GetOr(t.description), updatedAt := now);
    Ok((Store(s.users, Replace(s.todos, TodoKey, t')), t'))
  }

  /** Delete: removes the caller's todo and nothing else. */
  function DeleteTodo(s: Store, me: User, todoId: int): (r: Result<Store>)
    ensures r.Err? <==> OwnedTodo(s, me, todoId).Err?
    ensures r.Err? ==> r.error == NotFound
    ensures r.Ok? ==>
      && r.value.users == s.users
      && (forall i :: 0 <= i < |r.value.todos| ==> r.value.todos[i] in s.todos && r.value.todos[i].id != todoId)
      && (forall i :: 0 <= i < |s.todos| && s.todos[i].id != todoId ==> s.todos[i] in r.value.todos)
      && (Ordered(s.todos, TodoKey) ==> Ordered(r.value.todos, TodoKey) && |r.value.todos| == |s.todos| - 1)
  {
    var t :- OwnedTodo(s, me, todoId);
    RemoveOneRowWhenFound(s, t);
    Ok(Store(s.users, Remove(s.todos, TodoKey, todoId)))
  }

  lemma RemoveOneRowWhenFound(s: Store, t: Todo)
    requires t in s.todos
    ensures Ordered(s.todos, TodoKey) ==>
      Ordered(Remove(s.todos, TodoKey, t.id), TodoKey) && |Remove(s.todos, TodoKey, t.id)| == |s.todos| - 1
  {
    if Ordered(s.todos, TodoKey) {
      var i :| 0 <= i < |s.todos| && s.todos[i] == t;
      RemoveOneRow(s.todos, TodoKey, t.id);
      RemoveOrdered(s.todos, TodoKey, t.id);
    }
  }

  /** After a successful delete the id is gone: fetching or deleting it
      again gives `NotFound`. */
  lemma DeleteThenGet(s: Store, me: User, todoId: int)
    requires DeleteTodo(s, me, todoId).Ok?
    ensures GetTodo(DeleteTodo(s, me, todoId).value, me, todoId) == Err(NotFound)
    ensures DeleteTodo(DeleteTodo(s, me, todoId).value, me, todoId) == Err(NotFound)
  {
    var s' := DeleteTodo(s, me, todoId).value;
    assert forall i :: 0 <= i < |s'.todos| ==> s'.todos[i].id != todoId;
  }

  /** After a successful update, fetching the todo returns the updated row. */
  lemma UpdateThenGet(s: Store, me: User, now: Timestamp, todoId: int, title: Option<string>, description: Option<string>)
    requires title.Some? ==> 1 <= |title.value| <= 200
    requires Ordered(s.todos, TodoKey)
    requires UpdateTodo(s, me, now, todoId, title, description).Ok?
    ensures var (s', t') := UpdateTodo(s, me, now, todoId, title, description).value;
            GetTodo(s', me, todoId) == Ok(t')
  {
    var (s', t') := UpdateTodo(s, me, now, todoId, title, description).value;
    var t := OwnedTodo(s, me, todoId).value;
    var k :| 0 <= k < |s.todos| && s.todos[k] == t;
    assert s'.todos == Replace(s.todos, TodoKey, t');
    ReplaceOrdered(s.todos, TodoKey, t');
    assert s'.todos[k] == t';
    OwnedTodoFound(s', me, k);
  }

  /** Repeating an update with the same fields at the same time changes
      nothing further. */
  lemma UpdateIdempotent(s: Store, me: User, now: Timestamp, todoId: int, title: Option<string>, description: Option<string>)
    requires title.Some? ==> 1 <= |title.value| <= 200
    requires Ordered(s.todos, TodoKey)
    requires UpdateTodo(s, me, now, todoId, title, description).Ok?
    ensures var first := UpdateTodo(s, me, now, todoId, title, description);
            UpdateTodo(first.value.0, me, now, todoId, title, description) == first
  {
    var (s', t') := UpdateTodo(s, me, now, todoId, title, description).value;
    UpdateThenGet(s, me, now, todoId, title, description);
    assert OwnedTodo(s', me, todoId) == Ok(t');
    var again := Replace(s'.todos, TodoKey, t');
    assert |again| == |s'.todos|;
    assert forall i :: 0 <= i < |again| ==> again[i] == s'.todos[i];
    assert again == s'.todos;
  }
}
